=== FILE: README.md ===
# firebolt-cli configuration and credentials, modelled in Dafny

This project models how the Firebolt command-line client works out its
connection settings and how it stores them. It covers four parts:

- **Option resolution** (`src/firebolt_cli/common_options.py`). Username,
  account name and API endpoint each take the command-line or environment
  value first, then the value in a configuration-file snapshot loaded once
  per process, then a default. A required option that stays empty raises
  `MissingParameter("--<name>")`. The password is resolved from the `-p`
  prompt, then `FIREBOLT_PASSWORD`, then the file.
- **Persistence** (`src/firebolt_cli/utils.py`). The `firebolt-cli` section
  of `firebolt.ini` is a `map<string, string>`. The OS keyring is a map from
  account to secret, plus an `up` flag that says whether keyring calls
  succeed or raise `KeyringError`.
  - `read_config` merges the file section with the keyring password and
    drops empty values.
  - `update_config` gives the password to the keyring first and writes
    everything else, empty strings included, over the file section.
- **Client construction** (`construct_resource_manager`). The SDK's
  `ResourceManager` constructor is an oracle from `Settings` to
  `Constructed | HttpStatusError | OtherError`. The token is tried first,
  and only an HTTP status error falls back, once, to username and password.
- **Helpers and the `configure` command.** These are the length checks
  before rendering results, the choice of a database's default engine, and
  `configure` as a function from options, prompt answers and the stored
  configuration to the map it hands to `update_config`.

Files: `wrappers.dfy` (Option/Result), `config_store.dfy`,
`common_options.dfy`, `client_construction.dfy`, `result_helpers.dfy`,
`configure.dfy`, `scenarios.dfy` (end-to-end laws) and `findings.dfy`.

The flag/environment merging done by Click is not modelled: each option's
value arrives already merged. The SDK's `DEFAULT_API_URL` is the constant
`"api.app.firebolt.io"`; no property depends on its text beyond it being
non-empty.

Two behaviours of the code are worth stating up front:
- Password resolution never consults the keyring, although
  `update_config` stores the password there first
  (`src/firebolt_cli/utils.py:189`) and `read_config` merges the keyring
  password over the file's (`src/firebolt_cli/utils.py:151-154`); see
  Findings.
- The hint of a missing option is `--` followed by the parameter name, so
  it reads `--account_name`.

## Model

| member | source | states |
|---|---|---|
| ConfigStore.ReadConfig | src/firebolt_cli/utils.py:139-158 | every value shown is non-empty; a non-password key is shown iff the file section holds it non-empty, with that value; the password is the keyring's when it is readable and non-empty, otherwise the file's |
| ConfigStore.SetKeyringParam | src/firebolt_cli/utils.py:161-176 | reports success exactly when the keyring call succeeds: the keyring is usable and the value is non-empty or the entry to delete exists; an empty value deletes the entry, any other value stores it; a failed call changes nothing; other accounts are untouched |
| ConfigStore.UpdateConfig | src/firebolt_cli/utils.py:179-208 | the keyring changes only through a password it accepts (a stored non-empty one, or the deletion of one it holds); a password the keyring took stays out of the file; the file is left alone when nothing remains for it; given entries are stored verbatim (empty strings included) and every other file entry keeps its value |
| ConfigStore.ReadAfterUpdate | src/firebolt_cli/utils.py:139-208 | what `read_config` shows of any key after `update_config`: unchanged if not updated; the new value, or absent for `""`; for a password the keyring deleted, whatever the file holds; a delete the keyring refuses writes `""` to the file and hides the password |
| ConfigStore.UpdateThenRead | tests/unit/test_utils.py:106-151 | round trip: a stored non-empty value is read back, whether it went to the keyring or to the file |
| ConfigStore.UpdateEmptyHidesKey | src/firebolt_cli/utils.py:179-208 | tombstone: storing `""` hides the key; for the password this needs no live file password only when the keyring holds a password and so accepts the delete |
| ConfigStore.ClearAllHidesEverything | tests/unit/test_utils.py:106-113 | clearing all six keys leaves nothing visible when the file holds only those keys and no live file password can resurface through a delete the keyring accepts |
| ConfigStore.SetOneOnEmpty | tests/unit/test_utils.py:106-124 | with nothing visible, storing one non-empty value makes exactly that one entry visible |
| CommonOptions.ReadConfigKey | src/firebolt_cli/common_options.py:15-25 | no file and no snapshot give `None`; the first lookup on an existing file loads it; a loaded snapshot is never replaced; a value found is the snapshot section's entry |
| CommonOptions.LookupReadsFile | src/firebolt_cli/common_options.py:15-25 | while the file is unchanged, a lookup returns exactly the file section's entry (or `None` when the file or section is missing) |
| CommonOptions.SnapshotIsStable | src/firebolt_cli/common_options.py:12-25 | after the first load, lookups of any key read the file as it was at loading time, whatever the file holds later |
| CommonOptions.OrChain | src/firebolt_cli/common_options.py:34 | Python's `or`: the first operand that is neither `None` nor `""`, or the last operand when all are empty |
| CommonOptions.ResolveOption | src/firebolt_cli/common_options.py:28-39 | a non-empty given value wins without reading the file; the only error is `MissingParameter("--<name>")` for a required option; a required option never resolves empty; a non-empty default always yields a non-empty value |
| CommonOptions.ResolveFollowsPrecedence | src/firebolt_cli/common_options.py:34-36 | through any snapshot that agrees with the file, the result is the `or`-chain of the given value, the file value and the default, the option is missing iff it is required and that chain is empty, and the snapshot keeps agreeing |
| CommonOptions.EmptyValueFallsThrough | src/firebolt_cli/common_options.py:34 | a given `""` resolves exactly like an absent value |
| CommonOptions.ApiEndpointDefaults | src/firebolt_cli/common_options.py:77-82 | with no endpoint given and none in the file, `api_endpoint` resolves to the SDK default |
| CommonOptions.ResolvePassword | src/firebolt_cli/common_options.py:42-53 | with `-p` the prompt's answer is returned and nothing else is read; otherwise a non-empty `FIREBOLT_PASSWORD` beats the file; neither gives `MissingParameter("--password")`; without `-p` the result is non-empty |
| CommonOptions.PasswordFollowsPrecedence | src/firebolt_cli/common_options.py:48-53 | through any snapshot that agrees with the file: the prompt answer with `-p`; otherwise the `or`-chain of `FIREBOLT_PASSWORD` and the file value, missing iff that chain is empty; the snapshot keeps agreeing |
| CommonOptions.ResolveCommonOptions | src/firebolt_cli/common_options.py:56-83 | each resolved field is its option's `or`-chain over the file (the password is the prompt answer with `-p`); resolution fails iff the username, the unprompted password or the account chain is empty, and reports the first of these in declaration order; all fields are non-empty (the password unless prompted) |
| ClientConstruction.ConstructResourceManager | src/firebolt_cli/utils.py:59-88 | one or two constructor calls; the last call's outcome is returned; all calls share server, account and region (`""` when none is given); the token call carries no user or password; a second call happens iff a token was given and rejected with an HTTP status error; that call carries username and password and no token |
| ClientConstruction.TokenAcceptedMeansOneCall | tests/unit/test_utils.py:176-195 | an accepted token means exactly one call, with only the token populated |
| ClientConstruction.TokenRejectedFallsBackOnce | src/firebolt_cli/utils.py:71-88 | a rejected token leads to exactly the calls [token, username/password]; any other error propagates after the single token call |
| ResultHelpers.PrepareExecutionResultLine | src/firebolt_cli/utils.py:23-38 | fails with `ValueError` iff data and header lengths differ; otherwise pairs each header with its value |
| ResultHelpers.PrepareExecutionResultTable | src/firebolt_cli/utils.py:41-56 | fails with `ValueError` iff some row's length differs from the header's; otherwise pairs every row with the header, row by row |
| ResultHelpers.GetDefaultDatabaseEngine | src/firebolt_cli/utils.py:227-243 | no bindings gives "No engines attached"; success iff some binding is flagged default, and then the engine of the first flagged binding; otherwise "No default engine is found." |
| Configure.GivenOptions | src/firebolt_cli/configure.py:19 | exactly the string options whose value is not `None`, with their values |
| Configure.ExplicitUpdate | src/firebolt_cli/configure.py:19-24 | given options plus the prompted password when `-p` is set; empty exactly when interactive mode is due |
| Configure.InteractivePrompts | src/firebolt_cli/configure.py:26-45 | five prompts in the order username, password, account name, database name, engine name, each defaulting to the stored value (or `""`); only the password hides its input and default |
| Configure.PromptedEntries | src/firebolt_cli/configure.py:38-45 | the prompt loop assigns each prompt's key the typed answer, or the prompt's default for an empty answer |
| Configure.InteractiveUpdate | src/firebolt_cli/configure.py:26-45 | interactive mode sets exactly the five interactive keys, never `api_endpoint`, each from its answer or its stored default |
| Configure.ConfigureUpdate | src/firebolt_cli/configure.py:15-47 | non-interactive: exactly the given options, the password from its `-p` prompt, no interactive prompts; interactive iff nothing was given: the five prompts and keys; `api_endpoint` appears only when given |
| Configure.ConfigureCommand | src/firebolt_cli/configure.py:15-47 | with options, every key not given keeps its stored file value, the password entry included unless `-p` is set, and the keyring is untouched without `-p`; in interactive mode only the five prompted keys can change in the file; the endpoint is only written when given |
| Configure.ConfigureOptionsRoundTrip | src/firebolt_cli/configure.py:47 | a non-empty option given to `configure` is shown by `read_config` afterwards |
| Configure.EnterEverywhereKeepsConfig | src/firebolt_cli/configure.py:26-45 | pressing Enter at every interactive prompt leaves `read_config` exactly as it was |
| Scenarios.StoredOptionIsResolved | src/firebolt_cli/common_options.py:15-37 | a non-empty value of a non-password key stored by `update_config` is what a later command resolves from a fresh snapshot when no value is given |
| Scenarios.AliceAcmeScenario | src/firebolt_cli/common_options.py:56-83 | after storing `username=alice` then `account_name=acme` without a prior file: username `alice`, account `acme`, the default endpoint, and a missing password |
| Scenarios.ConfiguredOptionIsResolved | src/firebolt_cli/configure.py:47 | a non-empty option given to `configure` is what a later command resolves for it when no value is given |
| Findings.StoredPasswordIsNotResolved | src/firebolt_cli/common_options.py:50-53 | with no configuration file, after `configure -p` stores `secret` in a working keyring, `read_config` shows it but password resolution raises `MissingParameter` |
| Findings.StalePasswordIsResolved | src/firebolt_cli/common_options.py:50-53 | with a file holding `password = old`, after `configure -p` stores `new` in a working keyring, `read_config` shows `new` but password resolution returns the stale `old` |
| Findings.ResolvePasswordWithKeyring | src/firebolt_cli/common_options.py:42-53 | corrected resolver: prompt, then environment, then a readable non-empty keyring password, and without one exactly the file resolver as written; never empty without a prompt |
| Findings.CorrectedPasswordMatchesReadConfig | src/firebolt_cli/utils.py:139-158 | without `-p` or `FIREBOLT_PASSWORD`, from a fresh snapshot, the corrected resolver returns the password `read_config` shows, and is missing exactly when it shows none |
| Findings.StoredPasswordIsResolved | src/firebolt_cli/utils.py:190-195 | with the correction, a stored non-empty password is resolved, whichever store took it |
| Findings.ClearedPasswordResurfaces | src/firebolt_cli/utils.py:190-208 | with an old file password and a newer keyring password, clearing the password makes the old one visible |
| Findings.UpdateConfigScrubbed | src/firebolt_cli/utils.py:179-208 | corrected update: same keyring and non-password file effects; exactly `update_config` when the keyring does not take a password; no live file password once a password is given and the keyring is up |
| Findings.ScrubbedClearHidesKey | src/firebolt_cli/utils.py:179-187 | with the correction, storing `""` hides every key, the password included |
| Findings.ScrubbedUpdateThenRead | src/firebolt_cli/utils.py:179-208 | the correction keeps the round trip of non-empty values |

## Findings

| source | as written | input that shows it | evidently intended | confidence | as-written member | corrected member |
|---|---|---|---|---|---|---|
| src/firebolt_cli/common_options.py:50-53 | without `-p`, the password is `FIREBOLT_PASSWORD or read_config_key("password")`; the keyring is never read, although `update_config` puts the password there first | `configure -p` answering `secret`, working keyring, no config file; then any command without `-p` or `FIREBOLT_PASSWORD` raises `MissingParameter`. With a file holding `password = old`, answering `new` makes the command use `old` | resolve the keyring password before the file, as `read_config` does | medium, not executed | Findings.StoredPasswordIsNotResolved, Findings.StalePasswordIsResolved | Findings.ResolvePasswordWithKeyring |
| src/firebolt_cli/utils.py:190-208 | when the keyring accepts `password=""` as a delete, the file is not touched, so a password written there earlier (while the keyring failed) becomes visible again | file `password = old`, keyring `new`, working keyring; `update_config(password="")` makes `read_config()["password"] == "old"` | an empty value deletes the password: no live file password remains once the keyring took it | medium, not executed | Findings.ClearedPasswordResurfaces | Findings.UpdateConfigScrubbed |

## Left out

- Click plumbing is not modelled: option parsing, `envvar` merging, decorator ordering, `json_option` and the `common_options` decorator. Each option's command-line/environment value is an input.
- CommonOptions.ResolveCommonOptions resolves in declaration order. Click first processes options given on the command line, which only changes which missing option is reported first.
- The INI format and the filesystem are not modelled: `ConfigParser` parsing and writing, key lower-casing, whitespace stripping, the DEFAULT section, `user_config_dir` and `open`. A corrupt file that fails to parse is not modelled either. Writing then reading the file is the identity here. The round-trip lemmas (ConfigStore.UpdateThenRead, ConfigStore.SetOneOnEmpty, Configure.ConfigureOptionsRoundTrip, Scenarios.StoredOptionIsResolved, Scenarios.ConfiguredOptionIsResolved) therefore hold only for values that the INI writer and reader preserve. `ConfigParser` strips surrounding whitespace on reading, so `" x "` reads back as `x`, and `" "` disappears.
- ConfigStore.UpdateConfig always succeeds. In the code, `open(config_file, "w")` raises `FileNotFoundError` when the configuration directory does not exist, because nothing creates it. That can happen after the keyring has already changed, leaving a partial update. This is not modelled.
- ConfigStore.UpdateConfig: values are strings. A `None` value reaching the file writer (which `ConfigParser` rejects) is outside the model, so `update_config(password=None)` is not represented.
- The `keyring` library is one `up` flag per run, plus the rule that deleting a missing entry raises `PasswordDeleteError` (a `KeyringError`). When the flag is set, every other call succeeds; when it is not, every call raises `KeyringError`. Intermittent failures within one run are not modelled.
- Click's `prompt`: the `-p` prompt repeats until it gets a non-empty line. The model takes the answer as given.
- ClientConstruction.ConstructResourceManager: requires `username` and `password` among the options even on the token path, which never reads them. Every caller passes both.
- `ResourceManager`, `Settings` and HTTP are an oracle. The database lookup by name and the final `engines.get` are external calls: GetDefaultDatabaseEngine returns the chosen engine id.
- `convert_bytes` is left out because it formats floating-point numbers.
- `string_to_int_or_none` is left out because it relies on Python's `int()` parsing.
- `read_from_file`, `read_from_stdin_buffer` and `exit_on_firebolt_exception` are left out because they are I/O and process exit.
- Output rendering with `json.dumps` and `tabulate`, and the success message of `configure`, are left out. The result helpers stop at the header/value pairs.

=== FILE: client_construction.dfy ===
/** Construction of the resource manager from the resolved options
    (`construct_resource_manager` in src/firebolt_cli/utils.py): an access
    token is tried first, and only an HTTP status error falls back, once, to
    username and password. The SDK's `ResourceManager` constructor is an
    oracle `create` from settings to an outcome. */
module ClientConstruction {
  import opened Wrappers

  /** The SDK's `Settings`; fields the CLI does not pass are `None`. */
  datatype Settings = Settings(server: Option<string>, defaultRegion: Option<string>, accountName: Option<string>,
                               user: Option<string>, password: Option<string>, accessToken: Option<string>)

  /** What one `ResourceManager(settings)` call does: returns a manager, raises
      `HTTPStatusError`, or raises anything else. */
  datatype Construction<M> = Constructed(manager: M) | HttpStatusError | OtherError

  /** The final outcome and every settings value the constructor was called
      with, in call order. */
  datatype Attempts<M> = Attempts(outcome: Construction<M>, calls: seq<Settings>)

  /** The keys `construct_resource_manager` reads by subscript. */
  predicate HasConnectionKeys(raw: map<string, Option<string>>) {
    && "api_endpoint" in raw && "account_name" in raw && "access_token" in raw
    && "username" in raw && "password" in raw
  }

  /** The settings every attempt shares: server, region (`""` when none is
      given) and account. */
  function BaseSettings(raw: map<string, Option<string>>): Settings
    requires HasConnectionKeys(raw)
  {
    Settings(raw["api_endpoint"], if "region" in raw then raw["region"] else Some(""),
             raw["account_name"], None, None, None)
  }

  /** `construct_resource_manager(**raw)`. */
  function ConstructResourceManager<M>(raw: map<string, Option<string>>, create: Settings -> Construction<M>)
    : (r: Attempts<M>)
    requires HasConnectionKeys(raw)
    // one or two constructor calls, the last one's outcome is the result
    ensures 1 <= |r.calls| <= 2
    ensures r.outcome == create(r.calls[|r.calls| - 1])
    // every call carries the same server, region and account
    ensures forall i | 0 <= i < |r.calls| ::
      && r.calls[i].server == raw["api_endpoint"]
      && r.calls[i].accountName == raw["account_name"]
      && r.calls[i].defaultRegion == (if "region" in raw then raw["region"] else Some(""))
    // with a token, the first call uses the token alone
    ensures raw["access_token"].Some? ==>
      r.calls[0].accessToken == raw["access_token"] && r.calls[0].user.None? && r.calls[0].password.None?
    // a second call happens exactly when the token was rejected with an HTTP status error
    ensures |r.calls| == 2 <==> raw["access_token"].Some? && create(r.calls[0]).HttpStatusError?
    // the username/password call carries no token; it is the only call without a token
    ensures raw["access_token"].None? || |r.calls| == 2 ==>
      var last := r.calls[|r.calls| - 1];
      last.accessToken.None? && last.user == raw["username"] && last.password == raw["password"]
  {
    var base := BaseSettings(raw);
    var withPassword := base.(user := raw["username"], password := raw["password"]);
    if raw["access_token"].Some? then
      var withToken := base.(accessToken := raw["access_token"]);
      match create(withToken)
      case HttpStatusError => Attempts(create(withPassword), [withToken, withPassword])
      case other => Attempts(other, [withToken])
    else
      Attempts(create(withPassword), [withPassword])
  }

  /** Token success: a constructor that accepts the token is called exactly
      once, with the token and without username or password. */
  lemma {:induction false} TokenAcceptedMeansOneCall<M>(raw: map<string, Option<string>>,
                                                       create: Settings -> Construction<M>)
    requires HasConnectionKeys(raw) && raw["access_token"].Some?
    requires create(BaseSettings(raw).(accessToken := raw["access_token"])).Constructed?
    ensures var r := ConstructResourceManager(raw, create);
      && r.calls == [BaseSettings(raw).(accessToken := raw["access_token"])]
      && r.outcome.Constructed?
  {
  }

  /** Token fallback: a rejected token leads to exactly two calls, the second
      with username and password, whose outcome is final. An error of any
      other kind propagates after one call. */
  lemma {:induction false} TokenRejectedFallsBackOnce<M>(raw: map<string, Option<string>>,
                                                        create: Settings -> Construction<M>)
    requires HasConnectionKeys(raw) && raw["access_token"].Some?
    ensures var first := BaseSettings(raw).(accessToken := raw["access_token"]);
      var second := BaseSettings(raw).(user := raw["username"], password := raw["password"]);
      var r := ConstructResourceManager(raw, create);
      && (create(first).HttpStatusError? ==> r.calls == [first, second] && r.outcome == create(second))
      && (create(first).OtherError? ==> r.calls == [first] && r.outcome.OtherError?)
  {
  }
}

=== FILE: common_options.dfy ===
/** Resolution of the connection options every command shares
    (src/firebolt_cli/common_options.py). Each option takes the value given on
    the command line or in its environment variable (already merged by the
    option parser), then the value in a once-loaded snapshot of the
    configuration file, then a default. */
module CommonOptions {
  import opened Wrappers
  import opened ConfigStore

  /** The SDK's default API host, used when no endpoint is configured. */
  const DefaultApiUrl: string := "api.app.firebolt.io"

  /** The process-wide snapshot of the configuration file: not yet loaded,
      or loaded with or without the `firebolt-cli` section. */
  datatype ConfigCache = Unloaded | Loaded(section: Option<Section>)

  /** A lookup's value together with the snapshot afterwards. */
  datatype Lookup = Lookup(value: Option<string>, cache: ConfigCache)

  /** Click's `MissingParameter`, carrying the hint shown to the user. */
  datatype MissingParameter = MissingParameter(hint: string)

  /** An option's resolved value (or the error) with the snapshot afterwards. */
  datatype Resolution = Resolution(result: Result<Option<string>, MissingParameter>, cache: ConfigCache)

  /** `ConfigParser.get(section, key, fallback=None)` on a loaded snapshot. */
  function SnapshotGet(section: Option<Section>, key: string): Option<string> {
    if section.Some? then Get(section.value, key) else None
  }

  /** A snapshot agrees with the file when it is not loaded yet or was loaded
      from this file. */
  predicate CacheAgrees(cache: ConfigCache, file: ConfigFile) {
    cache.Unloaded? || (file.IniFile? && cache.section == file.section)
  }

  /** `read_config_key(key)`: loads the file into the snapshot on first use
      (if the file exists) and answers every lookup from the snapshot. */
  function ReadConfigKey(cache: ConfigCache, file: ConfigFile, key: string): (l: Lookup)
    // once loaded, the snapshot is never replaced
    ensures cache.Loaded? ==> l.cache == cache
    // with no snapshot and no file there is nothing to read
    ensures cache.Unloaded? && file.NoFile? ==> l == Lookup(None, Unloaded)
    // the first lookup on an existing file loads it
    ensures cache.Unloaded? && file.IniFile? ==> l.cache == Loaded(file.section)
    // a found value comes from the snapshot's section
    ensures l.value.Some? ==>
      l.cache.Loaded? && l.cache.section.Some? && key in l.cache.section.value
      && l.value.value == l.cache.section.value[key]
    ensures l.cache.Loaded? && l.cache.section.Some? && key in l.cache.section.value ==> l.value.Some?
  {
    match cache
    case Loaded(section) => Lookup(SnapshotGet(section, key), cache)
    case Unloaded =>
      if file.NoFile? then Lookup(None, Unloaded)
      else Lookup(SnapshotGet(file.section, key), Loaded(file.section))
  }

  /** While the file does not change, a lookup through the snapshot reads
      exactly what the file holds, and the snapshot keeps agreeing with it. */
  lemma {:induction false} LookupReadsFile(cache: ConfigCache, file: ConfigFile, key: string)
    requires CacheAgrees(cache, file)
    ensures ReadConfigKey(cache, file, key).value == Get(FileSection(file), key)
    ensures CacheAgrees(ReadConfigKey(cache, file, key).cache, file)
  {
    match cache
    case Unloaded =>
    case Loaded(section) =>
      assert file.IniFile?;
  }

  /** Once the snapshot is loaded, later lookups of any key read the file as
      it was at loading time, whatever the file holds by then. */
  lemma {:induction false} SnapshotIsStable(first: ConfigFile, later: ConfigFile, key1: string, key2: string)
    requires first.IniFile?
    ensures var l1 := ReadConfigKey(Unloaded, first, key1);
      ReadConfigKey(l1.cache, later, key2).value == Get(FileSection(first), key2)
  {
    var l1 := ReadConfigKey(Unloaded, first, key1);
    assert l1.cache == Loaded(first.section);
    LookupReadsFile(l1.cache, first, key2);
  }

  /** Python's `a or b or ... or z` on optional strings: the first operand
      that is neither `None` nor `""`, or else the last operand. */
  function OrChain(operands: seq<Option<string>>): (r: Option<string>)
    requires |operands| > 0
    ensures Truthy(r) <==> exists i :: 0 <= i < |operands| && Truthy(operands[i])
    ensures Truthy(r) ==> exists i :: (0 <= i < |operands| && r == operands[i]
      && forall j :: 0 <= j < i ==> !Truthy(operands[j]))
    ensures !Truthy(r) ==> r == operands[|operands| - 1]
    decreases |operands|
  {
    if |operands| == 1 || Truthy(operands[0]) then operands[0]
    else
      var rest := OrChain(operands[1..]);
      assert forall i :: 1 <= i < |operands| ==> operands[i] == operands[1..][i - 1];
      rest
  }

  /** The callback of `default_from_config_file(default, required)` for the
      option `name`: `value or read_config_key(name) or default`, failing
      with `MissingParameter("--<name>")` when the option is required and
      nothing non-empty was found. The file is read only when `value` is
      empty. */
  function ResolveOption(name: string, value: Option<string>, default: Option<string>, required: bool,
                         cache: ConfigCache, file: ConfigFile): (r: Resolution)
    // a non-empty command-line or environment value wins without reading the file
    ensures Truthy(value) ==> r == Resolution(Success(value), cache)
    // otherwise the file is consulted, through the snapshot
    ensures !Truthy(value) ==> r.cache == ReadConfigKey(cache, file, name).cache
    // the only error is the missing required option, named by its flag
    ensures r.result.Failure? ==> required && r.result.error == MissingParameter("--" + name)
    // a required option never resolves to an empty value
    ensures required && r.result.Success? ==> Truthy(r.result.value)
    // a non-empty default always yields a non-empty value
    ensures Truthy(default) ==> r.result.Success? && Truthy(r.result.value)
  {
    if Truthy(value) then Resolution(Success(value), cache)
    else
      var l := ReadConfigKey(cache, file, name);
      var v := if Truthy(l.value) then l.value else default;
      if required && !Truthy(v) then Resolution(Failure(MissingParameter("--" + name)), l.cache)
      else Resolution(Success(v), l.cache)
  }

  /** `value or <file entry> or default` for the option `name`: the value
      an option resolves to when the snapshot agrees with the file. */
  function FileChain(value: Option<string>, file: ConfigFile, name: string, default: Option<string>): Option<string> {
    OrChain([value, Get(FileSection(file), name), default])
  }

  /** The precedence law: the resolved value is the `or`-chain of the merged
      command-line/environment value, the file value and the default, and
      the option is missing exactly when it is required and that chain is
      empty; this holds through any snapshot that agrees with the file, which
      keeps agreeing afterwards. */
  lemma {:induction false} ResolveFollowsPrecedence(name: string, value: Option<string>, default: Option<string>,
                                                    required: bool, cache: ConfigCache, file: ConfigFile)
    requires CacheAgrees(cache, file)
    ensures var chain := FileChain(value, file, name, default);
      var r := ResolveOption(name, value, default, required, cache, file);
      && (r.result.Failure? <==> required && !Truthy(chain))
      && (r.result.Success? ==> r.result.value == chain)
      && CacheAgrees(r.cache, file)
  {
    var fv := Get(FileSection(file), name);
    LookupReadsFile(cache, file, name);
    if !Truthy(value) {
      assert [value, fv, default][1..] == [fv, default];
      assert OrChain([value, fv, default]) == OrChain([fv, default]);
      if !Truthy(fv) {
        assert [fv, default][1..] == [default];
        assert OrChain([fv, default]) == default;
      }
    }
  }

  /** An empty command-line or environment value behaves exactly like an
      absent one: both fall through to the file. */
  lemma {:induction false} EmptyValueFallsThrough(name: string, default: Option<string>, required: bool,
                                                  cache: ConfigCache, file: ConfigFile)
    ensures ResolveOption(name, Some(""), default, required, cache, file)
         == ResolveOption(name, None, default, required, cache, file)
  {
  }

  /** `--api-endpoint` is optional and defaults to the SDK's API host: with
      no value given and none in the file, the default is used. */
  lemma {:induction false} ApiEndpointDefaults(value: Option<string>, file: ConfigFile)
    requires !Truthy(value)
    requires !Truthy(Get(FileSection(file), "api_endpoint"))
    ensures ResolveOption("api_endpoint", value, Some(DefaultApiUrl), false, Unloaded, file).result
         == Success(Some(DefaultApiUrl))
  {
    LookupReadsFile(Unloaded, file, "api_endpoint");
  }

  /** `password_from_config_file`: with the `--password` flag the answer to
      the prompt is returned and nothing else is consulted; otherwise
      `FIREBOLT_PASSWORD or read_config_key("password")`, failing with
      `MissingParameter("--password")` when both are empty. The keyring is
      not consulted on this path. */
  function ResolvePassword(prompt: bool, promptAnswer: string, env: Option<string>,
                           cache: ConfigCache, file: ConfigFile): (r: Resolution)
    // the prompt short-circuits environment and file
    ensures prompt ==> r == Resolution(Success(Some(promptAnswer)), cache)
    // a non-empty environment value beats the file, which is not read
    ensures !prompt && Truthy(env) ==> r == Resolution(Success(env), cache)
    // otherwise the file decides
    ensures !prompt && !Truthy(env) ==>
      var l := ReadConfigKey(cache, file, PasswordKey);
      r.cache == l.cache
      && (Truthy(l.value) ==> r.result == Success(l.value))
      && (!Truthy(l.value) ==> r.result == Failure(MissingParameter("--password")))
    ensures r.result.Success? ==> r.result.value.Some?
    // without the prompt the password is never empty
    ensures !prompt && r.result.Success? ==> Truthy(r.result.value)
  {
    if prompt then Resolution(Success(Some(promptAnswer)), cache)
    else if Truthy(env) then Resolution(Success(env), cache)
    else
      var l := ReadConfigKey(cache, file, PasswordKey);
      if Truthy(l.value) then Resolution(Success(l.value), l.cache)
      else Resolution(Failure(MissingParameter("--password")), l.cache)
  }

  /** `FIREBOLT_PASSWORD or <file entry>`: the password resolved without
      the prompt when the snapshot agrees with the file. */
  function PasswordChain(env: Option<string>, file: ConfigFile): Option<string> {
    OrChain([env, Get(FileSection(file), PasswordKey)])
  }

  /** The password's precedence law: the prompt answer when prompted;
      otherwise the `or`-chain of the environment and the file, missing
      exactly when that chain is empty; this holds through any snapshot that
      agrees with the file, which keeps agreeing afterwards. */
  lemma {:induction false} PasswordFollowsPrecedence(prompt: bool, promptAnswer: string, env: Option<string>,
                                                     cache: ConfigCache, file: ConfigFile)
    requires CacheAgrees(cache, file)
    ensures var r := ResolvePassword(prompt, promptAnswer, env, cache, file);
      && (prompt ==> r.result == Success(Some(promptAnswer)))
      && (!prompt ==> (r.result.Failure? <==> !Truthy(PasswordChain(env, file))))
      && (!prompt && r.result.Success? ==> r.result.value == PasswordChain(env, file))
      && CacheAgrees(r.cache, file)
  {
    var fv := Get(FileSection(file), PasswordKey);
    LookupReadsFile(cache, file, PasswordKey);
    if !Truthy(env) {
      assert [env, fv][1..] == [fv];
    }
  }

  /** The merged command-line/environment values of the shared options;
      `passwordPrompt` is the `-p/--password` flag. */
  datatype CommonInputs = CommonInputs(username: Option<string>, passwordPrompt: bool,
                                       accountName: Option<string>, apiEndpoint: Option<string>)

  /** The connection settings a command receives. */
  datatype Connection = Connection(username: string, password: string, accountName: string, apiEndpoint: string)

  /** The four shared options resolved in declaration order from a fresh
      snapshot: `username` and `account_name` are required, `api_endpoint`
      defaults to the SDK's host; the first missing option is reported. */
  function ResolveCommonOptions(inputs: CommonInputs, promptAnswer: string, passwordEnv: Option<string>,
                                file: ConfigFile): (r: Result<Connection, MissingParameter>)
    // each field is its option's precedence chain over the file
    ensures r.Success? ==> Some(r.value.username) == FileChain(inputs.username, file, "username", None)
    ensures r.Success? ==> Some(r.value.accountName) == FileChain(inputs.accountName, file, "account_name", None)
    ensures r.Success? ==>
      Some(r.value.apiEndpoint) == FileChain(inputs.apiEndpoint, file, "api_endpoint", Some(DefaultApiUrl))
    ensures r.Success? && inputs.passwordPrompt ==> r.value.password == promptAnswer
    ensures r.Success? && !inputs.passwordPrompt ==> Some(r.value.password) == PasswordChain(passwordEnv, file)
    ensures r.Success? ==>
      r.value.username != "" && r.value.accountName != "" && r.value.apiEndpoint != ""
      && (!inputs.passwordPrompt ==> r.value.password != "")
    // resolution fails exactly when a required chain is empty, naming the first such option
    ensures var noUser := !Truthy(FileChain(inputs.username, file, "username", None));
      var noPassword := !inputs.passwordPrompt && !Truthy(PasswordChain(passwordEnv, file));
      var noAccount := !Truthy(FileChain(inputs.accountName, file, "account_name", None));
      && (r.Failure? <==> noUser || noPassword || noAccount)
      && (r.Failure? ==> r.error == MissingParameter(
            if noUser then "--username" else if noPassword then "--password" else "--account_name"))
  {
    assert "--" + "username" == "--username" && "--" + "account_name" == "--account_name";
    var u := ResolveOption("username", inputs.username, None, true, Unloaded, file);
    ResolveFollowsPrecedence("username", inputs.username, None, true, Unloaded, file);
    if u.result.Failure? then Failure(u.result.error) else
    var p := ResolvePassword(inputs.passwordPrompt, promptAnswer, passwordEnv, u.cache, file);
    PasswordFollowsPrecedence(inputs.passwordPrompt, promptAnswer, passwordEnv, u.cache, file);
    if p.result.Failure? then Failure(p.result.error) else
    var a := ResolveOption("account_name", inputs.accountName, None, true, p.cache, file);
    ResolveFollowsPrecedence("account_name", inputs.accountName, None, true, p.cache, file);
    if a.result.Failure? then Failure(a.result.error) else
    var e := ResolveOption("api_endpoint", inputs.apiEndpoint, Some(DefaultApiUrl), false, a.cache, file);
    ResolveFollowsPrecedence("api_endpoint", inputs.apiEndpoint, Some(DefaultApiUrl), false, a.cache, file);
    assert e.result.Success? && Truthy(e.result.value);
    Success(Connection(u.result.value.value, p.result.value.value, a.result.value.value, e.result.value.value))
  }
}

=== FILE: config_store.dfy ===
/** The persistence layer of the CLI: the `firebolt-cli` section of the
    `firebolt.ini` file and the password kept in the OS keyring
    (src/firebolt_cli/utils.py, `read_config`, `set_keyring_param`,
    `update_config`). */
module ConfigStore {
  import opened Wrappers

  /** Flat key/value contents of the `firebolt-cli` section. */
  type Section = map<string, string>

  /** The configuration file as the CLI sees it: absent, or present with or
      without the `firebolt-cli` section. */
  datatype ConfigFile = NoFile | IniFile(section: Option<Section>)

  /** Secrets the keyring holds under the service name `firebolt-cli`, keyed
      by account name (the CLI only ever uses the account `password`). */
  type Vault = map<string, string>

  /** Everything the CLI persists between runs. */
  datatype Store = Store(file: ConfigFile, vault: Vault)

  /** The outcome of `set_keyring_param`: whether the keyring accepted the
      operation, and the keyring afterwards. */
  datatype KeyringWrite = KeyringWrite(accepted: bool, vault: Vault)

  const PasswordKey: string := "password"

  /** The six keys the CLI persists. */
  const ConfigKeys: seq<string> :=
    ["username", "account_name", "api_endpoint", "engine_name", "database_name", "password"]

  /** The section's entries, or none when the file or the section is absent. */
  function FileSection(f: ConfigFile): Section {
    if f.IniFile? && f.section.Some? then f.section.value else map[]
  }

  /** `keyring.get_password("firebolt-cli", account)`: the stored secret (or
      `None`) when the keyring is usable (`up`), otherwise a `KeyringError`. */
  function KeyringGet(vault: Vault, account: string, up: bool): Result<Option<string>, ()> {
    if up then Success(Get(vault, account)) else Failure(())
  }

  /** Drops every entry whose value is the empty string. */
  function DropEmpty(m: map<string, string>): (r: map<string, string>)
    ensures forall k :: k in r <==> k in m && m[k] != ""
    ensures forall k | k in r :: r[k] == m[k]
  {
    map k | k in m && m[k] != "" :: m[k]
  }

  /** The password the keyring contributes to `read_config`: only a stored,
      non-empty one, and only when the keyring can be read. */
  predicate KeyringHasPassword(vault: Vault, up: bool) {
    up && PasswordKey in vault && vault[PasswordKey] != ""
  }

  /** `read_config()`: the file section with the keyring password on top;
      keyring errors are ignored and empty values are left out.
      `up` says whether the keyring can be read. */
  function ReadConfig(s: Store, up: bool): (r: map<string, string>)
    ensures forall k | k in r :: r[k] != ""
    ensures forall k | k != PasswordKey ::
      (k in r <==> k in FileSection(s.file) && FileSection(s.file)[k] != "")
      && (k in r ==> r[k] == FileSection(s.file)[k])
    ensures KeyringHasPassword(s.vault, up) ==>
      PasswordKey in r && r[PasswordKey] == s.vault[PasswordKey]
    ensures !KeyringHasPassword(s.vault, up) ==>
      (PasswordKey in r <==> PasswordKey in FileSection(s.file) && FileSection(s.file)[PasswordKey] != "")
      && (PasswordKey in r ==> r[PasswordKey] == FileSection(s.file)[PasswordKey])
  {
    var fromFile := FileSection(s.file);
    var merged :=
      match KeyringGet(s.vault, PasswordKey, up)
      case Success(Some(v)) => if v != "" then fromFile[PasswordKey := v] else fromFile
      case _ => fromFile;
    DropEmpty(merged)
  }

  /** `set_keyring_param(param, value)`: deletes the secret when `value` is
      empty and stores it otherwise; reports whether the keyring accepted the
      operation instead of raising. `up` says whether keyring calls succeed;
      deleting a secret that is not stored raises `PasswordDeleteError`, a
      `KeyringError`, even when they do. */
  function SetKeyringParam(vault: Vault, param: string, value: string, up: bool): (w: KeyringWrite)
    ensures w.accepted <==> up && (value != "" || param in vault)
    ensures !w.accepted ==> w.vault == vault
    ensures w.accepted && value == "" ==> param !in w.vault
    ensures w.accepted && value != "" ==> param in w.vault && w.vault[param] == value
    ensures forall a | a != param :: Get(w.vault, a) == Get(vault, a)
  {
    if !up then KeyringWrite(false, vault)
    else if value == "" then
      if param in vault then KeyringWrite(true, vault - {param}) else KeyringWrite(false, vault)
    else KeyringWrite(true, vault[param := value])
  }

  /** Whether `update_config(**updates)` hands the password to the keyring
      rather than to the file: a password is given and the keyring accepts
      storing it, or deleting the one it holds. */
  predicate KeyringTakes(vault: Vault, updates: map<string, string>, up: bool) {
    PasswordKey in updates && up && (updates[PasswordKey] != "" || PasswordKey in vault)
  }

  /** The keyring step of `update_config`: the password, when given, is
      offered to the keyring. */
  function PasswordWrite(vault: Vault, updates: map<string, string>, up: bool): (w: KeyringWrite)
    ensures w.accepted <==> KeyringTakes(vault, updates, up)
  {
    if PasswordKey in updates then SetKeyringParam(vault, PasswordKey, updates[PasswordKey], up)
    else KeyringWrite(false, vault)
  }

  /** The entries `update_config` hands to the file: everything except a
      password the keyring accepted. */
  function FileUpdates(vault: Vault, updates: map<string, string>, up: bool): (r: map<string, string>)
    ensures forall k :: k in r <==> k in updates && (k != PasswordKey || !KeyringTakes(vault, updates, up))
    ensures forall k | k in r :: r[k] == updates[k]
  {
    if PasswordWrite(vault, updates, up).accepted then updates - {PasswordKey} else updates
  }

  /** `update_config(**updates)`: the password goes to the keyring first and
      to the file only when the keyring refuses it; the remaining entries
      override the file section, empty strings included; when nothing
      remains the file is not touched. `up` says whether keyring calls
      succeed. Values are strings: a `None` reaching the file writer is
      outside the model. */
  function UpdateConfig(s: Store, updates: map<string, string>, up: bool): (r: Store)
    // the keyring only changes through a password it accepts
    ensures !KeyringTakes(s.vault, updates, up) ==> r.vault == s.vault
    ensures KeyringTakes(s.vault, updates, up) && updates[PasswordKey] == "" ==>
      PasswordKey !in r.vault
    ensures PasswordKey in updates && up && updates[PasswordKey] != "" ==>
      PasswordKey in r.vault && r.vault[PasswordKey] == updates[PasswordKey]
    ensures forall a | a != PasswordKey :: Get(r.vault, a) == Get(s.vault, a)
    // the file is rewritten exactly when something is left for it
    ensures updates.Keys <= (if KeyringTakes(s.vault, updates, up) then {PasswordKey} else {}) ==>
      r.file == s.file
    ensures !(updates.Keys <= (if KeyringTakes(s.vault, updates, up) then {PasswordKey} else {})) ==>
      r.file.IniFile? && r.file.section.Some?
    // entries given are stored verbatim, except a password the keyring took
    ensures forall k | k in updates && (k != PasswordKey || !KeyringTakes(s.vault, updates, up)) ::
      k in FileSection(r.file) && FileSection(r.file)[k] == updates[k]
    // nothing else in the file changes
    ensures forall k | k !in updates || (k == PasswordKey && KeyringTakes(s.vault, updates, up)) ::
      Get(FileSection(r.file), k) == Get(FileSection(s.file), k)
  {
    var w := PasswordWrite(s.vault, updates, up);
    var forFile := FileUpdates(s.vault, updates, up);
    if forFile.Keys == {} then
      Store(s.file, w.vault)
    else
      Store(IniFile(Some(FileSection(s.file) + forFile)), w.vault)
  }

  /** Clearing every key: `update_config` with all six keys set to `""`. */
  function ClearAll(): (updates: map<string, string>)
    ensures updates.Keys == set k | k in ConfigKeys
    ensures forall k | k in updates :: updates[k] == ""
  {
    map k | k in ConfigKeys :: ""
  }

  /** What `read_config` sees of one key after `update_config`, with the
      keyring equally usable in both: a key not updated reads as before; an
      updated key reads as its new value, or as absent when that value is
      `""`; a password the keyring deleted leaves whatever the file holds. */
  lemma {:induction false} ReadAfterUpdate(s: Store, updates: map<string, string>, up: bool, k: string)
    ensures var before := ReadConfig(s, up);
      var after := ReadConfig(UpdateConfig(s, updates, up), up);
      && (k !in updates ==> Get(after, k) == Get(before, k))
      && (k in updates && !(k == PasswordKey && KeyringTakes(s.vault, updates, up) && updates[k] == "") ==>
            Get(after, k) == (if updates[k] == "" then None else Some(updates[k])))
      && (k in updates && k == PasswordKey && KeyringTakes(s.vault, updates, up) && updates[k] == "" ==>
            Get(after, k) == Get(DropEmpty(FileSection(s.file)), k))
  {
    var s' := UpdateConfig(s, updates, up);
    if k == PasswordKey {
      if PasswordKey !in updates {
        assert s'.vault == s.vault;
      } else if up && updates[k] != "" {
        assert KeyringHasPassword(s'.vault, up);
      } else if KeyringTakes(s.vault, updates, up) {
        assert !KeyringHasPassword(s'.vault, up);
        assert Get(FileSection(s'.file), k) == Get(FileSection(s.file), k);
      } else {
        assert !KeyringHasPassword(s'.vault, up);
        assert FileSection(s'.file)[k] == updates[k];
      }
    }
  }

  /** Round trip: once a non-empty value is stored, `read_config` returns it,
      provided the keyring is equally usable when writing and reading. */
  lemma {:induction false} UpdateThenRead(s: Store, k: string, v: string, up: bool)
    requires v != ""
    ensures var r := ReadConfig(UpdateConfig(s, map[k := v], up), up);
      k in r && r[k] == v
  {
    var s' := UpdateConfig(s, map[k := v], up);
    if k == PasswordKey && up {
      assert KeyringHasPassword(s'.vault, up);
    } else if k == PasswordKey {
      assert !KeyringHasPassword(s'.vault, up);
      assert FileSection(s'.file)[k] == v;
    } else {
      assert FileSection(s'.file)[k] == v;
    }
  }

  /** Tombstone: storing `""` hides the key from `read_config`. For the
      password this needs the file not to hold a password of its own when
      the keyring holds one and so accepts the delete (see `Findings`). */
  lemma {:induction false} UpdateEmptyHidesKey(s: Store, k: string, up: bool)
    requires k == PasswordKey && up && PasswordKey in s.vault ==>
      PasswordKey !in FileSection(s.file) || FileSection(s.file)[PasswordKey] == ""
    ensures k !in ReadConfig(UpdateConfig(s, map[k := ""], up), up)
  {
    var s' := UpdateConfig(s, map[k := ""], up);
    if k == PasswordKey && up && PasswordKey in s.vault {
      assert !KeyringHasPassword(s'.vault, up);
      assert Get(FileSection(s'.file), k) == Get(FileSection(s.file), k);
    } else if k == PasswordKey {
      assert !KeyringHasPassword(s'.vault, up);
      assert FileSection(s'.file)[k] == "";
    } else {
      assert FileSection(s'.file)[k] == "";
    }
  }

  /** Clearing all six keys leaves nothing visible, provided the file holds
      no other keys and no stale file password can resurface when the
      keyring holds a password and so takes the delete. */
  lemma {:induction false} ClearAllHidesEverything(s: Store, up: bool)
    requires forall k | k in FileSection(s.file) :: k in ConfigKeys
    requires up && PasswordKey in s.vault ==>
      PasswordKey !in FileSection(s.file) || FileSection(s.file)[PasswordKey] == ""
    ensures ReadConfig(UpdateConfig(s, ClearAll(), up), up) == map[]
  {
    var s' := UpdateConfig(s, ClearAll(), up);
    var sec := FileSection(s'.file);
    forall k | k in sec
      ensures sec[k] == ""
    {
      if k == PasswordKey && up && PasswordKey in s.vault {
        assert Get(sec, k) == Get(FileSection(s.file), k);
      }
    }
    assert !KeyringHasPassword(s'.vault, up);
  }

  /** With nothing visible, storing one non-empty value makes exactly that
      entry visible (the unit tests set and clear each key in turn). */
  lemma {:induction false} SetOneOnEmpty(s: Store, k: string, v: string, up: bool)
    requires ReadConfig(s, up) == map[]
    requires v != ""
    ensures ReadConfig(UpdateConfig(s, map[k := v], up), up) == map[k := v]
  {
    UpdateThenRead(s, k, v, up);
  }
}

=== FILE: configure.dfy ===
/** The `configure` command (src/firebolt_cli/configure.py) as a pure function
    from the given options, the answers typed at the prompts and the
    previously stored configuration to the map handed to `update_config`. */
module Configure {
  import opened Wrappers
  import opened ConfigStore

  /** The command's options; `None` is an option not given, and `password`
      is the `-p/--password` flag asking for a prompt. */
  datatype ConfigureOptions = ConfigureOptions(username: Option<string>, password: bool,
                                               accountName: Option<string>, databaseName: Option<string>,
                                               apiEndpoint: Option<string>, engineName: Option<string>)

  /** One interactive prompt: the key it fills, its text, the default shown
      (or hidden) to the user, and whether the input is hidden. */
  datatype Prompt = Prompt(key: string, text: string, default: string, hideInput: bool, showDefault: bool)

  /** The prompts issued in interactive mode, in order, and the map passed to
      `update_config`. */
  datatype ConfigureRun = ConfigureRun(prompts: seq<Prompt>, update: map<string, string>)

  /** The keys filled in interactive mode, in prompt order, and their labels. */
  const InteractiveKeys: seq<string> := ["username", "password", "account_name", "database_name", "engine_name"]
  const InteractiveLabels: seq<string> := ["Username", "Password", "Account name", "Database name", "Engine name or URL"]

  /** The string-valued option stored under `key`, if the command has one. */
  function OptionValue(o: ConfigureOptions, key: string): Option<string> {
    if key == "username" then o.username
    else if key == "account_name" then o.accountName
    else if key == "database_name" then o.databaseName
    else if key == "api_endpoint" then o.apiEndpoint
    else if key == "engine_name" then o.engineName
    else None
  }

  /** The five string-valued option keys. */
  const StringOptionKeys: set<string> := {"username", "account_name", "database_name", "api_endpoint", "engine_name"}

  /** `{k: v for k, v in options.items() if v is not None}` without the
      password flag, which is handled separately. */
  function GivenOptions(o: ConfigureOptions): (m: map<string, string>)
    ensures forall k :: k in m <==> k in StringOptionKeys && OptionValue(o, k).Some?
    ensures forall k | k in m :: m[k] == OptionValue(o, k).value
  {
    map k | k in StringOptionKeys && OptionValue(o, k).Some? :: OptionValue(o, k).value
  }

  /** What Click's `prompt` returns: the typed line, or the default when the
      line is empty. */
  function PromptValue(answer: string, default: string): string {
    if answer != "" then answer else default
  }

  /** The interactive prompts, each defaulting to the stored value of its key
      (or `""`); only the password prompt hides its input and its default. */
  function InteractivePrompts(prev: map<string, string>): (ps: seq<Prompt>)
    ensures |ps| == |InteractiveKeys|
    ensures forall i | 0 <= i < |ps| ::
      && ps[i].key == InteractiveKeys[i]
      && ps[i].text == InteractiveLabels[i]
      && ps[i].default == Get(prev, InteractiveKeys[i]).GetOr("")
      && (ps[i].hideInput <==> InteractiveKeys[i] == PasswordKey)
      && (ps[i].showDefault <==> InteractiveKeys[i] != PasswordKey)
  {
    seq(|InteractiveKeys|, i requires 0 <= i < |InteractiveKeys| =>
      var key := InteractiveKeys[i];
      Prompt(key, InteractiveLabels[i], Get(prev, key).GetOr(""), key == PasswordKey, key != PasswordKey))
  }

  /** The entries the prompt loop assigns, `config[key] = prompt(...)`, one
      prompt after the other. */
  function PromptedEntries(ps: seq<Prompt>, answers: seq<string>): (m: map<string, string>)
    requires |answers| == |ps|
    requires forall i, j | 0 <= i < j < |ps| :: ps[i].key != ps[j].key
    ensures forall k :: k in m <==> exists i :: 0 <= i < |ps| && ps[i].key == k
    ensures forall i | 0 <= i < |ps| :: ps[i].key in m && m[ps[i].key] == PromptValue(answers[i], ps[i].default)
    decreases |ps|
  {
    if |ps| == 0 then map[]
    else
      var rest := PromptedEntries(ps[1..], answers[1..]);
      PromptedStep(ps, answers, rest);
      rest[ps[0].key := PromptValue(answers[0], ps[0].default)]
  }

  /** One step of the prompt loop: the entries of the later prompts, with the
      first prompt's entry added, are the entries of all prompts. */
  lemma {:induction false} PromptedStep(ps: seq<Prompt>, answers: seq<string>, rest: map<string, string>)
    requires |answers| == |ps| > 0
    requires forall i, j | 0 <= i < j < |ps| :: ps[i].key != ps[j].key
    requires forall k :: k in rest <==> exists i :: 0 <= i < |ps[1..]| && ps[1..][i].key == k
    requires forall i | 0 <= i < |ps[1..]| ::
      ps[1..][i].key in rest && rest[ps[1..][i].key] == PromptValue(answers[1..][i], ps[1..][i].default)
    ensures var m := rest[ps[0].key := PromptValue(answers[0], ps[0].default)];
      && (forall k :: k in m <==> exists i :: 0 <= i < |ps| && ps[i].key == k)
      && (forall i | 0 <= i < |ps| :: ps[i].key in m && m[ps[i].key] == PromptValue(answers[i], ps[i].default))
  {
    var m := rest[ps[0].key := PromptValue(answers[0], ps[0].default)];
    forall k
      ensures k in m <==> exists i :: 0 <= i < |ps| && ps[i].key == k
    {
      if k in rest && k != ps[0].key {
        var j :| 0 <= j < |ps[1..]| && ps[1..][j].key == k;
        assert ps[j + 1].key == k;
      }
      if exists i :: 0 <= i < |ps| && ps[i].key == k {
        var i :| 0 <= i < |ps| && ps[i].key == k;
        if i > 0 {
          assert ps[1..][i - 1].key == k;
        }
      }
    }
    forall i | 0 <= i < |ps|
      ensures ps[i].key in m && m[ps[i].key] == PromptValue(answers[i], ps[i].default)
    {
      if i > 0 {
        assert ps[1..][i - 1] == ps[i] && answers[1..][i - 1] == answers[i];
        assert ps[i].key != ps[0].key;
      }
    }
  }

  /** No key is prompted twice. */
  lemma InteractiveKeysDistinct()
    ensures forall i, j | 0 <= i < j < |InteractiveKeys| :: InteractiveKeys[i] != InteractiveKeys[j]
  {
  }

  /** The API endpoint is never asked for interactively. */
  lemma ApiEndpointNotPrompted()
    ensures "api_endpoint" !in InteractiveKeys
  {
    // lengths and single characters tell the keys apart without a costly string disequality proof
    var e := "api_endpoint";
    assert |e| == 12 && e[1] == 'p';
    assert |InteractiveKeys[0]| == 8 && |InteractiveKeys[1]| == 8 && |InteractiveKeys[3]| == 13;
    assert |InteractiveKeys[4]| == 11 && InteractiveKeys[2][1] == 'c';
  }

  /** Interactive mode runs exactly when no option was given. */
  predicate Interactive(o: ConfigureOptions) {
    && o.username.None? && o.accountName.None? && o.databaseName.None?
    && o.apiEndpoint.None? && o.engineName.None? && !o.password
  }

  /** The options that survive the `None` filter, with the password flag
      replaced by the prompted password or dropped. */
  function ExplicitUpdate(o: ConfigureOptions, passwordAnswer: string): (m: map<string, string>)
    ensures forall k :: k in m <==> OptionValue(o, k).Some? || (k == PasswordKey && o.password)
    ensures forall k | k in m :: m[k] == (if k == PasswordKey then passwordAnswer else OptionValue(o, k).value)
    ensures m.Keys == {} <==> Interactive(o)
  {
    var given := GivenOptions(o);
    var m := if o.password then given[PasswordKey := passwordAnswer] else given;
    assert !Interactive(o) ==> exists k :: k in m by {
      if o.password { assert PasswordKey in m; }
      else if o.username.Some? { assert "username" in m; }
      else if o.accountName.Some? { assert "account_name" in m; }
      else if o.databaseName.Some? { assert "database_name" in m; }
      else if o.apiEndpoint.Some? { assert "api_endpoint" in m; }
      else if o.engineName.Some? { assert "engine_name" in m; }
    }
    m
  }

  /** Interactive mode: one prompt per interactive key, in order, each
      answer (or the prompt's default) stored under its key. */
  function InteractiveUpdate(prev: map<string, string>, answers: seq<string>): (m: map<string, string>)
    requires |answers| == |InteractiveKeys|
    ensures forall k :: k in m <==> k in InteractiveKeys
    ensures forall i | 0 <= i < |InteractiveKeys| ::
      m[InteractiveKeys[i]] == PromptValue(answers[i], Get(prev, InteractiveKeys[i]).GetOr(""))
    ensures "api_endpoint" !in m
  {
    var ps := InteractivePrompts(prev);
    InteractiveKeysDistinct();
    var m := PromptedEntries(ps, answers);
    assert forall k :: k in m <==> k in InteractiveKeys by {
      forall k | k in InteractiveKeys
        ensures k in m
      {
        var i :| 0 <= i < |InteractiveKeys| && InteractiveKeys[i] == k;
        assert ps[i].key == k;
      }
    }
    ApiEndpointNotPrompted();
    m
  }

  /** The body of `configure`: drop options not given; replace the password
      flag by the prompted password or drop it; with nothing left, prompt for
      the five interactive keys. `passwordAnswer` is the answer to the `-p`
      prompt, `answers` the lines typed at the interactive prompts and `prev`
      the result of `read_config()`. */
  function ConfigureUpdate(o: ConfigureOptions, passwordAnswer: string, answers: seq<string>,
                           prev: map<string, string>): (c: ConfigureRun)
    requires |answers| == |InteractiveKeys|
    // non-interactive: exactly the given options, the password from its prompt
    ensures !Interactive(o) ==> c.prompts == []
    ensures !Interactive(o) ==> forall k ::
      (k in c.update <==> OptionValue(o, k).Some? || (k == PasswordKey && o.password))
    ensures !Interactive(o) ==> forall k | k in c.update ::
      c.update[k] == (if k == PasswordKey then passwordAnswer else OptionValue(o, k).value)
    // interactive: five prompts, five keys, never the API endpoint
    ensures Interactive(o) ==> c.prompts == InteractivePrompts(prev)
    ensures Interactive(o) ==> forall k :: k in c.update <==> k in InteractiveKeys
    ensures Interactive(o) ==> forall i | 0 <= i < |InteractiveKeys| ::
      c.update[InteractiveKeys[i]] == PromptValue(answers[i], Get(prev, InteractiveKeys[i]).GetOr(""))
    ensures "api_endpoint" in c.update ==> !Interactive(o) && o.apiEndpoint.Some?
  {
    var config := ExplicitUpdate(o, passwordAnswer);
    if config.Keys == {} then
      ConfigureRun(InteractivePrompts(prev), InteractiveUpdate(prev, answers))
    else
      ConfigureRun([], config)
  }

  /** The whole command: build the update from the current configuration and
      hand it to `update_config`, once. `up` says whether the keyring works
      during the run. */
  function ConfigureCommand(o: ConfigureOptions, passwordAnswer: string, answers: seq<string>,
                            s: Store, up: bool): (r: Store)
    requires |answers| == |InteractiveKeys|
    // keys the command was not given keep their stored values
    ensures !Interactive(o) ==> forall k | OptionValue(o, k).None? && (k != PasswordKey || !o.password) ::
      Get(FileSection(r.file), k) == Get(FileSection(s.file), k)
    // interactive mode writes only the five prompted keys
    ensures Interactive(o) ==> forall k | k !in InteractiveKeys ::
      Get(FileSection(r.file), k) == Get(FileSection(s.file), k)
    ensures !Interactive(o) && !o.password ==> r.vault == s.vault
    // the API endpoint is only ever written when given explicitly
    ensures o.apiEndpoint.None? ==>
      Get(FileSection(r.file), "api_endpoint") == Get(FileSection(s.file), "api_endpoint")
  {
    var run := ConfigureUpdate(o, passwordAnswer, answers, ReadConfig(s, up));
    UpdateConfig(s, run.update, up)
  }

  /** Running `configure` with options stores each given non-empty value so
      that `read_config` returns it, with the keyring equally usable in both. */
  lemma {:induction false} ConfigureOptionsRoundTrip(o: ConfigureOptions, passwordAnswer: string,
                                                     answers: seq<string>, s: Store, up: bool, k: string)
    requires |answers| == |InteractiveKeys|
    requires OptionValue(o, k).Some? && OptionValue(o, k).value != ""
    ensures var r := ReadConfig(ConfigureCommand(o, passwordAnswer, answers, s, up), up);
      k in r && r[k] == OptionValue(o, k).value
  {
    var run := ConfigureUpdate(o, passwordAnswer, answers, ReadConfig(s, up));
    var s' := UpdateConfig(s, run.update, up);
    assert !Interactive(o) by {
      assert k in GivenOptions(o);
    }
    assert k != PasswordKey;
    assert k in run.update && run.update[k] == OptionValue(o, k).value;
    assert FileSection(s'.file)[k] == OptionValue(o, k).value;
  }

  /** Writing back what `read_config` shows (or `""` where it shows
      nothing) leaves that key's visible value as it was. */
  lemma {:induction false} WriteBackKeepsKey(s: Store, update: map<string, string>, up: bool, k: string)
    requires k in update ==> update[k] == Get(ReadConfig(s, up), k).GetOr("")
    ensures Get(ReadConfig(UpdateConfig(s, update, up), up), k) == Get(ReadConfig(s, up), k)
  {
    ReadAfterUpdate(s, update, up, k);
  }

  /** `configure` run without any option. */
  const NoOptions: ConfigureOptions := ConfigureOptions(None, false, None, None, None, None)

  /** Pressing Enter at every interactive prompt keeps every visible value:
      each prompt offers the stored value as its default and writes it back. */
  lemma {:induction false} EnterEverywhereKeepsConfig(s: Store, up: bool, answers: seq<string>)
    requires |answers| == |InteractiveKeys|
    requires forall i | 0 <= i < |answers| :: answers[i] == ""
    ensures ReadConfig(ConfigureCommand(NoOptions, "", answers, s, up), up) == ReadConfig(s, up)
  {
    var prev := ReadConfig(s, up);
    assert Interactive(NoOptions);
    var update := ConfigureUpdate(NoOptions, "", answers, prev).update;
    assert update == InteractiveUpdate(prev, answers);
    var after := ReadConfig(UpdateConfig(s, update, up), up);
    forall k
      ensures Get(after, k) == Get(prev, k)
    {
      if k in update {
        var i :| 0 <= i < |InteractiveKeys| && InteractiveKeys[i] == k;
        assert update[k] == PromptValue(answers[i], Get(prev, k).GetOr(""));
      }
      WriteBackKeepsKey(s, update, up, k);
    }
    MapsEqualByLookup(after, prev);
  }
}

=== FILE: findings.dfy ===
/** Two places where the code as written contradicts its own statements
    about persistence: `update_config` says the password goes to the keyring
    first and that an empty string deletes a parameter (src/firebolt_cli/utils.py:181-189),
    and `read_config` merges the keyring password over the file's
    (src/firebolt_cli/utils.py:151-154). Each comes with an input that shows the discrepancy
    and a corrected definition with the intended property proved. */
module Findings {
  import opened Wrappers
  import opened ConfigStore
  import opened CommonOptions
  import opened Configure

  // ---------------------------------------------------------------------
  // 1. The password resolver never reads the keyring.
  //    `configure -p` stores the password in the keyring whenever the keyring
  //    accepts it, and then removes it from the file update; but
  //    `password_from_config_file` reads only `FIREBOLT_PASSWORD` and the file.
  // ---------------------------------------------------------------------

  /** `configure -p` with answer `secret`, on a machine with a working
      keyring and no configuration file. */
  const PromptOnly: ConfigureOptions := ConfigureOptions(None, true, None, None, None, None)

  /** As written: after `configure -p` stored the password in the keyring,
      `read_config` shows it, yet a later command cannot resolve it. */
  lemma {:induction false} StoredPasswordIsNotResolved()
    ensures var s := ConfigureCommand(PromptOnly, "secret", ["", "", "", "", ""], Store(NoFile, map[]), true);
      && Get(ReadConfig(s, true), PasswordKey) == Some("secret")
      && ResolvePassword(false, "", None, Unloaded, s.file).result == Failure(MissingParameter("--password"))
  {
    var s0 := Store(NoFile, map[]);
    var update := ConfigureUpdate(PromptOnly, "secret", ["", "", "", "", ""], ReadConfig(s0, true)).update;
    assert update == map[PasswordKey := "secret"];
    var s := UpdateConfig(s0, update, true);
    assert s.file == NoFile;
    assert s.vault[PasswordKey] == "secret";
  }

  /** A file that already holds the password `old`. */
  const OldPasswordFile: ConfigFile := IniFile(Some(map[PasswordKey := "old"]))

  /** As written, with a configuration file that already holds a password:
      after `configure -p` answered `new` on a machine with a working keyring,
      `read_config` shows `new`, yet a later command resolves the stale `old`. */
  lemma {:induction false} StalePasswordIsResolved()
    ensures var s := ConfigureCommand(PromptOnly, "new", ["", "", "", "", ""], Store(OldPasswordFile, map[]), true);
      && Get(ReadConfig(s, true), PasswordKey) == Some("new")
      && ResolvePassword(false, "", None, Unloaded, s.file).result == Success(Some("old"))
  {
    var s0 := Store(OldPasswordFile, map[]);
    var update := ConfigureUpdate(PromptOnly, "new", ["", "", "", "", ""], ReadConfig(s0, true)).update;
    assert update == map[PasswordKey := "new"];
    var s := UpdateConfig(s0, update, true);
    assert s.file == OldPasswordFile;
    assert s.vault[PasswordKey] == "new";
  }

  /** Corrected: without a prompt, `FIREBOLT_PASSWORD`, then the keyring's
      password, then the file, and only then `MissingParameter`. `up` says
      whether the keyring can be read. */
  function ResolvePasswordWithKeyring(prompt: bool, promptAnswer: string, env: Option<string>,
                                      vault: Vault, up: bool, cache: ConfigCache, file: ConfigFile)
    : (r: Resolution)
    ensures prompt ==> r.result == Success(Some(promptAnswer))
    ensures !prompt && Truthy(env) ==> r.result == Success(env)
    ensures !prompt && !Truthy(env) && KeyringHasPassword(vault, up) ==>
      r.result == Success(Some(vault[PasswordKey]))
    ensures !prompt && !Truthy(env) && !KeyringHasPassword(vault, up) ==>
      r == ResolvePassword(prompt, promptAnswer, env, cache, file)
    ensures !prompt && r.result.Success? ==> Truthy(r.result.value)
  {
    if !prompt && !Truthy(env) && KeyringHasPassword(vault, up) then
      Resolution(Success(Some(vault[PasswordKey])), cache)
    else ResolvePassword(prompt, promptAnswer, env, cache, file)
  }

  /** The corrected resolver agrees with `read_config`: with no prompt and no
      environment value, the password resolved is the one `read_config`
      shows, and it is missing exactly when `read_config` shows none. */
  lemma {:induction false} CorrectedPasswordMatchesReadConfig(s: Store, up: bool)
    ensures var r := ResolvePasswordWithKeyring(false, "", None, s.vault, up, Unloaded, s.file);
      var shown := Get(ReadConfig(s, up), PasswordKey);
      && (shown.Some? ==> r.result == Success(shown))
      && (shown.None? ==> r.result == Failure(MissingParameter("--password")))
  {
    LookupReadsFile(Unloaded, s.file, PasswordKey);
  }

  /** With the correction, a non-empty password stored by `update_config` is
      resolved by a later command, whether it went to the keyring or to the
      file. */
  lemma {:induction false} StoredPasswordIsResolved(s: Store, v: string, up: bool)
    requires v != ""
    ensures var s' := UpdateConfig(s, map[PasswordKey := v], up);
      ResolvePasswordWithKeyring(false, "", None, s'.vault, up, Unloaded, s'.file).result == Success(Some(v))
  {
    var s' := UpdateConfig(s, map[PasswordKey := v], up);
    UpdateThenRead(s, PasswordKey, v, up);
    CorrectedPasswordMatchesReadConfig(s', up);
  }

  // ---------------------------------------------------------------------
  // 2. Clearing the password can resurrect an older one.
  //    A password written to the file while the keyring was unusable stays
  //    there; once the keyring works and accepts `update_config(password="")`
  //    as a delete, the file is not touched and `read_config` shows the old
  //    file password again, although an empty value is meant to delete.
  // ---------------------------------------------------------------------

  /** A file holding an old password and a keyring holding a newer one. */
  const StaleStore: Store := Store(IniFile(Some(map[PasswordKey := "old"])), map[PasswordKey := "new"])

  /** As written: clearing the password makes the stale file password
      visible instead of removing the password. */
  lemma {:induction false} ClearedPasswordResurfaces()
    ensures Get(ReadConfig(StaleStore, true), PasswordKey) == Some("new")
    ensures Get(ReadConfig(UpdateConfig(StaleStore, map[PasswordKey := ""], true), true), PasswordKey) == Some("old")
  {
    var s' := UpdateConfig(StaleStore, map[PasswordKey := ""], true);
    assert s'.file == StaleStore.file;
    assert PasswordKey !in s'.vault;
  }

  /** Corrected: when the keyring takes the password, a password entry the
      file still holds is overwritten with the `""` tombstone, so the file
      never holds a live password next to the keyring's. */
  function UpdateConfigScrubbed(s: Store, updates: map<string, string>, up: bool): (r: Store)
    ensures PasswordKey in updates && up ==>
      PasswordKey !in FileSection(r.file) || FileSection(r.file)[PasswordKey] == ""
    ensures r.vault == UpdateConfig(s, updates, up).vault
    // when the keyring does not take a password, the update is exactly `update_config`'s
    ensures !KeyringTakes(s.vault, updates, up) ==> r == UpdateConfig(s, updates, up)
    ensures forall k | k != PasswordKey :: Get(FileSection(r.file), k) == Get(FileSection(UpdateConfig(s, updates, up).file), k)
  {
    var written := UpdateConfig(s, updates, up);
    if KeyringTakes(s.vault, updates, up) && PasswordKey in FileSection(written.file) then
      Store(IniFile(Some(FileSection(written.file)[PasswordKey := ""])), written.vault)
    else written
  }

  /** With the correction the tombstone law holds for every key: storing
      `""` hides the key from `read_config`. */
  lemma {:induction false} ScrubbedClearHidesKey(s: Store, k: string, up: bool)
    ensures k !in ReadConfig(UpdateConfigScrubbed(s, map[k := ""], up), up)
  {
    var s' := UpdateConfigScrubbed(s, map[k := ""], up);
    var w := UpdateConfig(s, map[k := ""], up);
    if k == PasswordKey {
      assert !KeyringHasPassword(s'.vault, up);
      if !up {
        assert FileSection(w.file)[k] == "";
      }
    } else {
      assert FileSection(w.file)[k] == "";
      assert Get(FileSection(s'.file), k) == Some("");
    }
  }

  /** The correction keeps the round trip: a stored non-empty value is read
      back. */
  lemma {:induction false} ScrubbedUpdateThenRead(s: Store, k: string, v: string, up: bool)
    requires v != ""
    ensures var r := ReadConfig(UpdateConfigScrubbed(s, map[k := v], up), up);
      k in r && r[k] == v
  {
    var s' := UpdateConfigScrubbed(s, map[k := v], up);
    var w := UpdateConfig(s, map[k := v], up);
    UpdateThenRead(s, k, v, up);
    if k == PasswordKey && up {
      assert KeyringHasPassword(s'.vault, up);
    } else if k == PasswordKey {
      assert s' == w;
    } else {
      assert Get(FileSection(s'.file), k) == Get(FileSection(w.file), k);
    }
  }
}

=== FILE: result_helpers.dfy ===
/** Small selection and validation helpers of src/firebolt_cli/utils.py: the
    length checks before rendering query results, and the choice of a
    database's default engine among its bindings. Rendering (JSON, tables) is
    not modelled; a successful check yields the header/value pairs that would
    be rendered. */
module ResultHelpers {
  import opened Wrappers

  /** Python's `ValueError` and the SDK's `FireboltError`, with their messages. */
  datatype ValueError = ValueError(message: string)
  datatype FireboltError = FireboltError(message: string)

  const LengthMismatch: string := "data and header have different length"
  const NoEnginesAttached: string := "No engines attached to the database"
  const NoDefaultEngine: string := "No default engine is found."

  /** `zip(header, data)` for sequences of equal length. */
  function Zip<H, T>(header: seq<H>, data: seq<T>): (r: seq<(H, T)>)
    requires |header| == |data|
    ensures |r| == |header|
    ensures forall i | 0 <= i < |r| :: r[i] == (header[i], data[i])
  {
    seq(|header|, i requires 0 <= i < |header| => (header[i], data[i]))
  }

  /** `prepare_execution_result_line(data, header)`: refuses data whose
      length differs from the header's, and otherwise pairs each header with
      its value. */
  function PrepareExecutionResultLine<H, T>(data: seq<T>, header: seq<H>): (r: Result<seq<(H, T)>, ValueError>)
    ensures r.Failure? <==> |data| != |header|
    ensures r.Failure? ==> r.error == ValueError(LengthMismatch)
    ensures r.Success? ==> (|r.value| == |header|
      && forall i | 0 <= i < |header| :: r.value[i].0 == header[i] && r.value[i].1 == data[i])
  {
    if |data| != |header| then Failure(ValueError(LengthMismatch))
    else Success(Zip(header, data))
  }

  /** `prepare_execution_result_table(data, header)`: refuses the table when
      any row's length differs from the header's, and otherwise pairs each
      row's values with the headers, row by row. */
  function PrepareExecutionResultTable<H, T>(data: seq<seq<T>>, header: seq<H>)
    : (r: Result<seq<seq<(H, T)>>, ValueError>)
    ensures r.Failure? <==> exists i :: 0 <= i < |data| && |data[i]| != |header|
    ensures r.Failure? ==> r.error == ValueError(LengthMismatch)
    ensures r.Success? ==> (|r.value| == |data|
      && forall i | 0 <= i < |data| :: |data[i]| == |header| && r.value[i] == Zip(header, data[i]))
    decreases |data|
  {
    if |data| == 0 then Success([])
    else if |data[0]| != |header| then Failure(ValueError(LengthMismatch))
    else
      match PrepareExecutionResultTable(data[1..], header)
      case Failure(e) =>
        assert exists i :: 0 <= i < |data[1..]| && |data[1..][i]| != |header|;
        Failure(e)
      case Success(rows) =>
        assert forall i | 1 <= i < |data| :: data[i] == data[1..][i - 1];
        Success([Zip(header, data[0])] + rows)
  }

  /** One binding of an engine to a database. */
  datatype Binding<Id> = Binding(engineId: Id, isDefaultEngine: bool)

  /** `get_default_database_engine`: the engine id of the first binding
      flagged as default, which the caller then fetches. Fails when the
      database has no bindings or none is flagged. */
  method GetDefaultDatabaseEngine<Id>(bindings: seq<Binding<Id>>) returns (r: Result<Id, FireboltError>)
    ensures |bindings| == 0 ==> r == Failure(FireboltError(NoEnginesAttached))
    ensures r.Success? <==> exists i :: 0 <= i < |bindings| && bindings[i].isDefaultEngine
    ensures r.Success? ==> exists i :: (0 <= i < |bindings| && bindings[i].isDefaultEngine
      && r.value == bindings[i].engineId
      && forall j :: 0 <= j < i ==> !bindings[j].isDefaultEngine)
    ensures |bindings| > 0 && r.Failure? ==> r.error == FireboltError(NoDefaultEngine)
  {
    if |bindings| == 0 {
      return Failure(FireboltError(NoEnginesAttached));
    }
    var i := 0;
    while i < |bindings|
      invariant 0 <= i <= |bindings|
      invariant forall j :: 0 <= j < i ==> !bindings[j].isDefaultEngine
    {
      if bindings[i].isDefaultEngine {
        return Success(bindings[i].engineId);
      }
      i := i + 1;
    }
    return Failure(FireboltError(NoDefaultEngine));
  }
}

=== FILE: scenarios.dfy ===
/** End-to-end behaviour: values stored by `update_config` or `configure`
    and read back by the option callbacks of a later command. */
module Scenarios {
  import opened Wrappers
  import opened ConfigStore
  import opened CommonOptions
  import opened Configure

  /** A value `update_config` stored under a shared option is what a later
      command resolves for that option when no command-line or environment
      value is given. */
  lemma {:induction false} StoredOptionIsResolved(s: Store, name: string, v: string, up: bool,
                                                  default: Option<string>, required: bool)
    requires name != PasswordKey && v != ""
    ensures var file := UpdateConfig(s, map[name := v], up).file;
      ResolveOption(name, None, default, required, Unloaded, file).result == Success(Some(v))
  {
    var file := UpdateConfig(s, map[name := v], up).file;
    assert FileSection(file)[name] == v;
    LookupReadsFile(Unloaded, file, name);
  }

  /** Storing `username=alice`, then `account_name=acme`, on a machine
      without a configuration file, and running a command without options
      or environment: username and account come from the file, the endpoint
      is the default, and the password is missing. */
  lemma {:induction false} AliceAcmeScenario(vault: Vault, up: bool)
    ensures
      var s1 := UpdateConfig(Store(NoFile, vault), map["username" := "alice"], up);
      var s2 := UpdateConfig(s1, map["account_name" := "acme"], up);
      && ResolveOption("username", None, None, true, Unloaded, s2.file).result == Success(Some("alice"))
      && ResolveOption("account_name", None, None, true, Unloaded, s2.file).result == Success(Some("acme"))
      && ResolveOption("api_endpoint", None, Some(DefaultApiUrl), false, Unloaded, s2.file).result
         == Success(Some(DefaultApiUrl))
      && ResolvePassword(false, "", None, Unloaded, s2.file).result == Failure(MissingParameter("--password"))
  {
    var s1 := UpdateConfig(Store(NoFile, vault), map["username" := "alice"], up);
    var s2 := UpdateConfig(s1, map["account_name" := "acme"], up);
    assert FileSection(s1.file) == map["username" := "alice"];
    assert FileSection(s2.file) == map["username" := "alice", "account_name" := "acme"];
    LookupReadsFile(Unloaded, s2.file, "username");
    LookupReadsFile(Unloaded, s2.file, "account_name");
    LookupReadsFile(Unloaded, s2.file, "api_endpoint");
    LookupReadsFile(Unloaded, s2.file, PasswordKey);
  }

  /** An option given to `configure` is what a later command resolves for
      it when no command-line or environment value is given. */
  lemma {:induction false} ConfiguredOptionIsResolved(o: ConfigureOptions, passwordAnswer: string,
                                                      answers: seq<string>, s: Store, up: bool, name: string,
                                                      default: Option<string>, required: bool)
    requires |answers| == |InteractiveKeys|
    requires OptionValue(o, name).Some? && OptionValue(o, name).value != ""
    ensures var file := ConfigureCommand(o, passwordAnswer, answers, s, up).file;
      ResolveOption(name, None, default, required, Unloaded, file).result == Success(OptionValue(o, name))
  {
    var run := ConfigureUpdate(o, passwordAnswer, answers, ReadConfig(s, up));
    assert !Interactive(o);
    assert name != PasswordKey;
    var file := UpdateConfig(s, run.update, up).file;
    assert FileSection(file)[name] == OptionValue(o, name).value;
    LookupReadsFile(Unloaded, file, name);
  }
}

=== FILE: wrappers.dfy ===
/** Optional values and error-carrying results, used in place of Python's
    `None` and of raised exceptions. */
module Wrappers {

  /** A value that may be missing, as Python's `Optional[...]`. */
  datatype Option<+T> = None | Some(value: T) {

    /** The wrapped value, or `default` when there is none. */
    function GetOr(default: T): T {
      match this
      case Some(v) => v
      case None => default
    }
  }

  /** The outcome of an operation that either returns a value or raises. */
  datatype Result<+R, +E> = Success(value: R) | Failure(error: E)

  /** Python truthiness of an optional string: `None` and `""` are both false. */
  predicate Truthy(s: Option<string>) {
    s.Some? && s.value != ""
  }

  /** `m.get(k)`: the value stored under `k`, or `None`. */
  function Get<K, V>(m: map<K, V>, k: K): Option<V> {
    if k in m then Some(m[k]) else None
  }

  /** Two maps that answer every lookup alike are equal. */
  lemma {:induction false} MapsEqualByLookup<K, V>(a: map<K, V>, b: map<K, V>)
    requires forall k :: Get(a, k) == Get(b, k)
    ensures a == b
  {
    assert forall k :: k in a <==> k in b by {
      forall k ensures k in a <==> k in b {
        assert Get(a, k) == Get(b, k);
      }
    }
    assert forall k | k in a :: a[k] == b[k] by {
      forall k | k in a ensures a[k] == b[k] {
        assert Get(a, k) == Get(b, k);
      }
    }
  }
}
